=== FILE: README.md ===
# django-pythonic-menu, modelled in Dafny

`django_pythonic_menu` lets a Django project declare a navigation menu as a
class whose attributes are `MenuItem`s and nested menu classes. When the
class is defined, a metaclass gives it a declaration index and `prepare`
synthesizes a root `MenuItem` whose children are the declared items, sorted
back into declaration order. At request time, view decorators (`activate`)
add nodes to the request's `active_menus` set. `build` then renders the tree
into nested dictionaries with `title`, `url`, `items` and `active`:

- a node whose visibility predicate says no is pruned with its whole subtree;
- `active` is `True` for an activated node;
- `active` is `'subitem'` for a node that is not activated but has a truthy child;
- otherwise `active` is `False`.

This project models that core as pure functions over immutable values:

- `wrappers.dfy`, module `Wrappers`: `Option` (Python's `None`-or-value) and
  `Result` (a computation that may raise).
- `menu_item.dfy`, module `MenuItems`: `Item` (a `MenuItem`), `Request` (its
  activation set), `Env` (the caller's functions and Django's `reverse`),
  and `Record` (a rendered dictionary). It also holds construction with the
  global counter, `activate`, `make_url` and `build`, and the lemmas about
  the render.
- `index_sort.dfy`, module `IndexSort`: the sort by declaration index that
  `prepare` uses. It proves that the sort yields a sorted permutation, that
  it is stable, and that the result does not depend on the order in which
  the class dictionary lists the items.
- `menu.dfy`, module `Menus`: a menu class object as a `MenuClass` (name,
  reserved index, optional `Meta`, and the class's own dictionary). It
  models `prepare` (with its scan `Collect`), class definition
  (`DefineMenu`), and the class-level `activate` and `build`. It also holds
  the corrected `prepare` of the finding below.
- `example.dfy`, module `MenuExample`: the documented example. `A` routes
  to `home`. The nested class `B` holds `C`, and `C` is activated. The
  lemmas derive the declared tree and its rendering, both as the library
  builds them and under the corrected `prepare`.

Modelling choices:

- The Python global `MenuItem._counter` is a `nat` threaded through
  construction, class definition and `prepare`.
- Each node has an identity `id` and a declaration `index`. Both take the
  counter value when the node is constructed. `prepare` overrides only the
  root's index (menu.py:111). The identity is what the activation set holds.
- The caller's visibility predicates and callable routes are handles. Their
  meaning is given by `Env.visible` and `Env.call`, which receive the
  request and the node's identity.
- Django's `reverse` is `Env.reverse`. It returns `None` for an unknown
  route name, and the model turns that into `Failure(NoReverseMatch(name))`.
  This failure propagates out of `build` exactly as the exception does,
  including from a nested child.
- A class's `__dict__` is an explicit sequence of `(name, field)` entries
  in dictionary order. It starts as what the class body binds. The library
  then writes into it twice: the metaclass stores `_cls_index` (menu.py:70),
  and `prepare` stores `root_item` (menu.py:110). A write to an existing
  name keeps its place, and a new name goes at the end. That is one order the
  source allows, not the only one: the Python versions setup.py declares
  (2.7 and 3.3 to 3.5) give a class dictionary no fixed order, which is why
  `prepare` sorts its children. `IndexSort.StorageOrderIrrelevant` shows
  that, when indices tell the items apart, the sorted children do not depend
  on this order. `Meta` is an explicit record.
- Re-preparing a nested class (menu.py:93-94) updates that class object. The
  scan therefore returns the dictionary with each nested class in its new
  state, and `prepare` returns the class with its new `root_item`. An outer
  class keeps the updated nested class, so nesting of any depth re-prepares
  from the latest state.
- The library's own base class `Menu` (menu.py:76) also goes through the
  metaclass. It takes counter values 0 and 1 before any user declaration.
- At menu.py:69, `MenuMeta.__init__` calls `super(MenuMeta, self)`, but the
  method's parameter is named `cls`, so `self` is unbound there. The model
  follows the evident intent: the class is created, reserves its index and
  is prepared. The code as written is the second row under "## Findings".
- `Menu.activate` on a class whose `root_item` is still `None` adds `None`
  to the set. No node equals `None`, so the model creates the set if needed
  and adds no node. `Menu.activate` and `Menu.build` receive the value of
  `root_item` at call time as an `Option<Item>`.

## Model

| member | source | states |
|---|---|---|
| MenuItems.NewItem | django_pythonic_menu/menu.py:9-16 | `MenuItem(...)` keeps the given title, visibility, route and extra arguments, starts with no children, takes the counter's value as its declaration index (and identity), and advances the counter by one |
| MenuItems.NewItems | django_pythonic_menu/menu.py:14-15 | constructions in program order take consecutive counter values: indices are strictly increasing, identities are distinct, and the counter ends past all of them |
| MenuItems.Activate | django_pythonic_menu/menu.py:20-24 | the activation set afterwards is the old set (empty if there was none) plus the node; nothing is removed and the rest of the request is untouched |
| MenuItems.ActivateCommutes | django_pythonic_menu/menu.py:20-24 | two stacked activating decorators give the same set in either order |
| MenuItems.MakeUrl | django_pythonic_menu/menu.py:55-63 | no route gives `None`; a callable's result is returned verbatim; `"!p"` gives `p`; any other string gives `reverse`'s URL; it fails exactly when an unescaped name is unknown to `reverse` |
| MenuItems.LiteralSkipsResolver | django_pythonic_menu/menu.py:60-61 | a `!`-escaped route yields the text after the marker whatever the resolver would answer, so `reverse` is never consulted |
| MenuItems.Build | django_pythonic_menu/menu.py:31-53 | the result is `None` exactly when a visibility predicate is set and says no, and then no URL or child is computed; otherwise the record keeps the node's title, extras and `make_url` URL, has no more items than children, and is `True` exactly for an activated node; the only failure is an unknown route |
| MenuItems.Gather | django_pythonic_menu/menu.py:43-51 | the child loop keeps the title, URL and extras, only appends to `items` (at most one record per child), and never makes or unmakes `True` |
| MenuItems.GatherIsEmitted | django_pythonic_menu/menu.py:43-51 | the child loop appends exactly the non-`None` child renders in child order, and turns `False` into `'subitem'` exactly when one of them is truthy |
| MenuItems.BuildMatchesSpec | django_pythonic_menu/menu.py:31-53 | the render equals the loop-free reading: prune, else URL, emitted children, and `active` from membership and children |
| MenuItems.ActiveRule | django_pythonic_menu/menu.py:39-49 | the items are exactly the emitted children; `active` is `True` iff the node is activated, `'subitem'` iff it is not but an emitted child is truthy, `False` otherwise, so an activated node is never downgraded |
| MenuItems.EmittedFacts | django_pythonic_menu/menu.py:43-51 | one record per visible child, each visible child's own record among them, every record the render of some child, and a successful loop means every child rendered without error |
| MenuItems.ActivePath | django_pythonic_menu/menu.py:39-49 | an activated node whose path from the root is visible renders `True`, and every node on the path renders truthy |
| MenuItems.QuietRendersInactive | django_pythonic_menu/menu.py:39-49 | a subtree with no activated node renders `False`, so activation does not reach siblings or unrelated branches |
| IndexSort.SortByIndex | django_pythonic_menu/menu.py:113 | the sorted children are ordered by declaration index and are a permutation of the collected ones |
| IndexSort.SortKeepsTies | django_pythonic_menu/menu.py:113 | the sort is stable: the children sharing an index come out in the order they went in |
| IndexSort.StorageOrderIrrelevant | django_pythonic_menu/menu.py:84-113 | when indices tell the items apart, the sorted children are the same whatever order the class dictionary yields them in |
| IndexSort.ConstructionOrderRecovered | django_pythonic_menu/menu.py:113 | items constructed one after another come out of the sort in construction order, whatever order they are stored in |
| IndexSort.SortIdempotent | django_pythonic_menu/menu.py:113 | sorting sorted children changes nothing |
| Menus.Assign | django_pythonic_menu/menu.py:110 | storing a class attribute makes that name hold the new value and leaves every other name as it was; an existing name keeps its place, and a new name is appended after the existing ones |
| Menus.Collect | django_pythonic_menu/menu.py:84-98 | the scan yields one child per attribute that is not `__`-named and is an item or a nested menu, never moves the counter back, and leaves the dictionary as it was except for the nested classes it re-prepared |
| Menus.NestedRootStored | django_pythonic_menu/menu.py:93-95 | after the scan, every nested menu class left in the dictionary holds as its `root_item` exactly a node the scan collected, so the class that `Menu.activate` later reads and the node the enclosing menu renders are the same |
| Menus.CollectFaithful | django_pythonic_menu/menu.py:88-98 | the k-th child comes from the k-th such attribute: an item is unchanged except that a missing title becomes the attribute name; a nested menu gives exactly the root that a `prepare` of that class builds (its `Meta` fields, collected children and fresh construction) |
| Menus.FlatScanKeepsCounter | django_pythonic_menu/menu.py:84-98 | a scan over a dictionary with no nested menu class constructs nothing, so the counter is unchanged |
| Menus.Prepare | django_pythonic_menu/menu.py:81-114 | the root's index is the class's reserved index; its title is `Meta`'s title if given, else the class name; route, visibility and extras come from `Meta`; it is a fresh construction; its children are the collected ones sorted by index; the class's `root_item` then holds this root, and every other attribute keeps its kind and, unless it is a nested class, its value |
| Menus.PrepareChildren | django_pythonic_menu/menu.py:84-114 | after `prepare`, each root child corresponds to a candidate attribute and every candidate attribute has its child under the root: the titled item, or the prepared root of the nested class |
| Menus.DefineMenuAsWritten | django_pythonic_menu/menu.py:68-69 | the metaclass's `__init__` as written fails with an unbound `self` for every class, before any index is reserved |
| Menus.DefineMenu | django_pythonic_menu/menu.py:68-73 | a class definition reserves the current counter value as the class index, which its root carries, while the root itself is a later, distinct construction; the class then holds `_cls_index` and `root_item`, and the body's other attributes keep their kind |
| Menus.ReprepareCollectsStaleRoot | django_pythonic_menu/menu.py:84-110 | preparing again a class whose first `prepare` stored a root collects that old root: one child more than before, the extra one being the old root with its subtree |
| Menus.ReprepareAddsStaleRoot | django_pythonic_menu/menu.py:68-113 | a class definition followed by the re-prepare that an enclosing class performs gives the nested root one extra child: the class's first root |
| Menus.PrepareIntended | django_pythonic_menu/menu.py:81-114 | the corrected `prepare` keeps the index, title, fresh construction and sorted children of `prepare`, and stores the root as `root_item` |
| Menus.CollectIntendedFaithful | django_pythonic_menu/menu.py:84-98 | with the correction, the k-th child comes from the k-th declared item or nested class, `root_item` excluded: an item gets its default title, a nested class gives the root of a corrected `prepare` of it |
| Menus.ReprepareIntendedStable | django_pythonic_menu/menu.py:84-113 | with the correction, preparing a class again gives a root with as many children as the first time, and, when the class holds no nested menu class, exactly the same children |
| Menus.MenuActivate | django_pythonic_menu/menu.py:119-123 | class-level activation adds the root's identity to the request's set, creating the set if needed, and removes nothing |
| Menus.MenuBuild | django_pythonic_menu/menu.py:129-132 | `Menu.build` fails with the not-prepared error exactly when there is no root, and otherwise renders the root |
| MenuExample.BaseClassAsWritten | django_pythonic_menu/menu.py:66-76 | as written, defining the library's own base class fails, while the corrected definition leaves the counter at 2 |
| MenuExample.LibraryBase | django_pythonic_menu/menu.py:66-76 | defining the library's base class takes index 0 and root 1 and leaves the counter at 2 |
| MenuExample.DocumentedDeclaration | django_pythonic_menu/menu.py:66-114 | after the base class, `A` takes 2, `C` 3, `class B` 4 with first root 5, and `class Menu` 6; `Menu`'s `prepare` re-prepares `B` into root 7, whose children are `C` and `B`'s first root, and builds root 8, which lists `A` before `B` |
| MenuExample.DocumentedRender | django_pythonic_menu/menu.py:31-53 | with `C` activated, `Menu` renders `'subitem'`, `A` renders `False` with URL `/`, and `B` renders `'subitem'` with `C` (`True`) followed by a second `B` record (`'subitem'`, holding `C`) |
| MenuExample.IntendedDeclaration | django_pythonic_menu/menu.py:84-114 | with the corrected `prepare`, `B`'s second root holds only `C` |
| MenuExample.IntendedRender | django_pythonic_menu/menu.py:31-53 | with the corrected `prepare`, `Menu` renders the documented output: `A` `False` with URL `/`, `B` `'subitem'` holding only `C`, `C` `True` |

## Findings

| source | as written | input that shows it | evidently intended | confidence | as-written member | corrected member |
|---|---|---|---|---|---|---|
| django_pythonic_menu/menu.py:84-95 | the scan of `cls.__dict__` does not skip the `root_item` attribute that an earlier `prepare` of the same class stored (menu.py:110), so re-preparing a nested class adds the class's previous root as a child | the documented menu: `class B` holding `C`, nested in `class Menu`; `B`'s node under `Menu` has children `C` and `B`'s first root, and renders a second `B` record inside the first | a class's root lists only the items and nested classes declared in it, as the documented output of this example shows | high, not executed | Menus.ReprepareAddsStaleRoot | Menus.ReprepareIntendedStable |
| django_pythonic_menu/menu.py:69 | `MenuMeta.__init__(cls, ...)` calls `super(MenuMeta, self).__init__(...)`; `self` is neither a parameter nor a module-level name, so the call raises `NameError` | importing the module: the library's own base class `Menu` (menu.py:76) goes through the metaclass and fails | `super(MenuMeta, cls).__init__(...)`: the class is created, reserves its index and is prepared | high, not executed | MenuExample.BaseClassAsWritten | MenuExample.LibraryBase |

In the first row, the corrected scan `Menus.CollectIntended` skips the `root_item` attribute
as it skips `__` names. `Menus.CollectIntendedFaithful` states for every
dictionary that its children are exactly the declared items and nested
classes. `MenuExample.IntendedRender` derives the documented
output from it; `MenuExample.DocumentedRender` derives what the code as
written produces. In the second row, every other member follows the
corrected reading; `Menus.DefineMenuAsWritten` is the code as written.

## Left out

- Django's `reverse` is not modelled. It is the parameter `Env.reverse`, a
  foreign call whose only modelled outcomes are a URL or "unknown name".
- The contents of the caller's visibility predicates and callable routes are
  not modelled. They are the parameters `Env.visible` and `Env.call`, and
  exceptions raised inside them are not modelled.
- A non-callable, non-`None` `visibility` is not represented. The source
  ignores such a value, which is the same as the model's `None`.
- A route that is neither `None`, callable nor a string is not represented.
  The source would raise `AttributeError` on `startswith`.
- Extra keyword arguments named `url`, `items` or `active` are excluded by
  the `Extras` type, so they are not modelled. The source merges kwargs after
  the four base keys (menu.py:41), so such a key silently overwrites the
  computed value; a kwarg named `items` would even have children appended
  to the shared list.
- `functools.wraps` and the forwarding of the wrapped handler's arguments and
  result (menu.py:18-27, 116-126) are not modelled. Only the request update
  is modelled.
- Python metaclass mechanics are not modelled: `six.with_metaclass`, the
  `type` constructor, and `hasattr(cls, 'Meta')`, including a `Meta`
  inherited from a base class. The caller gives the namespace the class body
  binds and the `Meta` record; the library's own writes into the class
  (`_cls_index`, `root_item`) are modelled.
- Object identity and aliasing are replaced by value semantics. `prepare`
  writes the default title into the shared `MenuItem` object; the model
  applies it to the collected copy, which gives the same titles on every
  later scan. A `MenuItem` or nested class bound to two attributes, or
  nested in two different menus, is two independent values in the model,
  whereas in Python a re-prepare through one path is seen through the
  other.
- IndexSort.StorageOrderIrrelevant: requires that indices tell the items
  apart. `ConstructionOrderRecovered` derives this for items constructed one
  after another, but not for a whole class dictionary, whose nested roots
  carry reserved class indices.
- setup.py is packaging only, so it is not modelled.

=== FILE: example.dfy ===
/** The documented example: a menu class `Menu` with an item `A` routed to
    `home` and a nested menu class `B` holding an item `C`; a handler
    activated `C`. The class dictionary lists its entries in an order unlike
    the declaration order, with a `__module__` entry the scan skips.

    Importing the library defines its base class `Menu` first, which takes
    counter values 0 (its index) and 1 (its root). Then `A` takes 2, `C` 3,
    `class B` 4 (its root 5), and `class Menu` 6; the outer `prepare`
    builds `B`'s second root at 7 and `Menu`'s root at 8. */
module MenuExample {
  import opened Wrappers
  import opened MenuItems
  import opened IndexSort
  import opened Menus

  /** The library base class's own dictionary: `root_item = None` and the
      three class methods. */
  const BaseNamespace := [Entry("__module__", OtherField), Entry("root_item", OtherField),
                          Entry("prepare", OtherField), Entry("activate", OtherField), Entry("build", OtherField)]

  const SpecA := ItemSpec(Path("home"), None, None, map[])
  const SpecC := ItemSpec(NoRoute, None, None, map[])
  const ItemA := Item(2, 2, None, Path("home"), None, map[], [])
  const ItemC := Item(3, 3, None, NoRoute, None, map[], [])
  const NamedA := ItemA.(title := Some("A"))
  const NamedC := ItemC.(title := Some("C"))

  const NamespaceB := [Entry("C", ItemField(ItemC))]

  /** `B`'s first root, made when `class B` is defined. */
  const RootB1 := Item(5, 4, Some("B"), NoRoute, None, map[], [NamedC])

  /** `B` once defined: its body plus `_cls_index` and `root_item`. */
  const ClassB1 := MenuClass("B", 4, None, [Entry("C", ItemField(ItemC)), Entry("_cls_index", OtherField),
                                            Entry("root_item", ItemField(RootB1))])

  const Namespace := [Entry("__module__", OtherField), Entry("B", MenuField(ClassB1)), Entry("A", ItemField(ItemA))]

  /** `B`'s second root, made when `Menu`'s `prepare` re-prepares `B`: it
      also holds `B`'s first root. */
  const RootB2 := Item(7, 4, Some("B"), NoRoute, None, map[], [NamedC, RootB1])

  const ClassB2 := ClassB1.(entries := [Entry("C", ItemField(ItemC)), Entry("_cls_index", OtherField),
                                        Entry("root_item", ItemField(RootB2))])

  const RootMenu := Item(8, 6, Some("Menu"), NoRoute, None, map[], [NamedA, RootB2])

  /** The same two roots under the corrected `prepare`. */
  const RootB2Intended := Item(7, 4, Some("B"), NoRoute, None, map[], [NamedC])
  const RootMenuIntended := Item(8, 6, Some("Menu"), NoRoute, None, map[], [NamedA, RootB2Intended])

  /** Which attribute names the scan skips. */
  lemma Names()
    ensures Dunder("__module__")
    ensures !Dunder("A") && !Dunder("B") && !Dunder("C")
    ensures !Dunder(IndexAttr) && !Dunder(RootAttr)
  {
    assert "__module__"[..2] == "__";
    assert IndexAttr[..2] == "_c" && RootAttr[..2] == "ro";
  }

  /** A dictionary holding no item and no nested class has no candidates. */
  lemma {:induction false} NoCandidates(entries: seq<Entry>)
    requires forall i :: 0 <= i < |entries| ==> entries[i].field.OtherField?
    ensures Candidates(entries) == []
    decreases |entries|
  {
    if entries != [] {
      assert forall i :: 0 <= i < |entries[1..]| ==> entries[1..][i] == entries[i + 1];
      NoCandidates(entries[1..]);
    }
  }

  lemma StoreBaseIndex()
    ensures Assign(BaseNamespace, IndexAttr, OtherField) == BaseNamespace + [Entry(IndexAttr, OtherField)]
  {
  }

  /** A class whose dictionary holds no item and no nested class gets a
      root without children, made at the counter value `prepare` starts at. */
  lemma FlatClassRoot(c: MenuClass, counter: nat)
    requires forall i :: 0 <= i < |c.entries| ==> c.entries[i].field.OtherField?
    ensures Prepare(c, counter).root.items == []
    ensures Prepare(c, counter).root.id == counter
  {
    FlatScanKeepsCounter(c.entries, counter);
    NoCandidates(c.entries);
    SameElements(Prepare(c, counter).root.items, Collect(c.entries, counter).found);
  }

  /** Defining the library's base class takes counter values 0 and 1 and
      gives a root without children. */
  lemma LibraryBase()
    ensures var base := DefineMenu(0, "Menu", None, BaseNamespace);
            base.root.index == 0 && base.root.id == 1 && base.root.items == [] && base.next == 2
  {
    StoreBaseIndex();
    var c := MenuClass("Menu", 0, None, BaseNamespace + [Entry(IndexAttr, OtherField)]);
    assert forall i :: 0 <= i < |c.entries| ==> c.entries[i].field.OtherField?;
    FlatClassRoot(c, 1);
  }

  /** As written, defining the library's base class already fails, so
      importing the module fails; the corrected definition succeeds. */
  lemma BaseClassAsWritten()
    ensures DefineMenuAsWritten(0, "Menu", None, BaseNamespace) == Failure(UnboundName("self"))
    ensures DefineMenu(0, "Menu", None, BaseNamespace).next == 2
  {
    LibraryBase();
  }

  /** The scan inside `B`'s first `prepare`, which the corrected scan
      shares. */
  lemma ScanB0(entries: seq<Entry>)
    requires entries == [Entry("C", ItemField(ItemC)), Entry("_cls_index", OtherField)]
    ensures Collect(entries, 5) == Scan([NamedC], entries, 5)
    ensures CollectIntended(entries, 5) == Scan([NamedC], entries, 5)
  {
    Names();
    assert |entries[0].name| != |RootAttr| && entries[1].name == IndexAttr;
    var tail := entries[1..];
    assert tail[0] == entries[1] && tail[1..] == [];
    assert Collect(tail, 5).found == [] && Collect(tail, 5).entries == tail && Collect(tail, 5).next == 5;
    assert Collect(entries, 5).entries == [entries[0]] + tail == entries;
    assert CollectIntended(tail, 5).found == [] && CollectIntended(tail, 5).entries == tail;
    assert CollectIntended(tail, 5).next == 5;
    assert CollectIntended(entries, 5).entries == [entries[0]] + tail == entries;
  }

  lemma StoreBIndex()
    ensures Assign(NamespaceB, IndexAttr, OtherField) == [Entry("C", ItemField(ItemC)), Entry("_cls_index", OtherField)]
  {
  }

  lemma NoRootInB(entries: seq<Entry>)
    requires entries == [Entry("C", ItemField(ItemC)), Entry("_cls_index", OtherField)]
    ensures !HasKey(entries, RootAttr)
  {
    assert |entries[0].name| != |RootAttr| && |entries[1].name| != |RootAttr|;
    var tail := entries[1..];
    assert tail[0] == entries[1] && tail[1..] == [];
    assert Lookup(tail, RootAttr) == None;
    assert Lookup(entries, RootAttr) == None;
  }

  /** `class B` is defined at counter value 4 with root 5. */
  lemma DefineB()
    ensures DefineMenu(4, "B", None, NamespaceB) == Prepared(RootB1, ClassB1, 6)
    ensures DefineMenuIntended(4, "B", None, NamespaceB) == Prepared(RootB1, ClassB1, 6)
  {
    var entries := [Entry("C", ItemField(ItemC)), Entry("_cls_index", OtherField)];
    StoreBIndex();
    ScanB0(entries);
    NoRootInB(entries);
    assert SortByIndex([NamedC]) == [NamedC];
  }

  /** `Menu`'s scan prepares `B` again at 7; that scan meets `C` and, under
      `root_item`, `B`'s first root, and collects both. */
  lemma ScanB1()
    ensures Collect(ClassB1.entries, 7).found == [NamedC, RootB1]
    ensures Collect(ClassB1.entries, 7).entries == ClassB1.entries
    ensures Collect(ClassB1.entries, 7).next == 7
  {
    Names();
    var entries := ClassB1.entries;
    assert entries[0].name == "C" && entries[1].name == IndexAttr && entries[2].name == RootAttr;
    var t1, t2 := entries[1..], entries[2..];
    assert t1[0] == entries[1] && t1[1..] == t2 && t2[0] == entries[2] && t2[1..] == [];
    assert Collect(t2, 7).found == [RootB1] && Collect(t2, 7).entries == t2 && Collect(t2, 7).next == 7;
    assert Collect(t1, 7).found == [RootB1] && Collect(t1, 7).entries == t1 && Collect(t1, 7).next == 7;
    assert Collect(entries, 7).entries == [entries[0]] + t1 == entries;
  }

  /** Storing the second root replaces `root_item` in place. */
  lemma StoreB2()
    ensures Assign(ClassB1.entries, RootAttr, ItemField(RootB2)) == ClassB2.entries
  {
  }

  lemma ReprepareB()
    ensures Prepare(ClassB1, 7) == Prepared(RootB2, ClassB2, 8)
  {
    ScanB1();
    StoreB2();
    assert Sorted([NamedC, RootB1]);
    SortedIsFixed([NamedC, RootB1]);
    assert Prepare(ClassB1, 7).root == RootB2;
  }

  /** The corrected re-prepare of `B` skips `root_item`. */
  lemma ReprepareBIntended()
    ensures PrepareIntended(ClassB1, 7).root == RootB2Intended
    ensures PrepareIntended(ClassB1, 7).next == 8
  {
    Names();
    var entries := ClassB1.entries;
    assert entries[0].name == "C" && entries[1].name == IndexAttr && entries[2].name == RootAttr;
    var t1, t2 := entries[1..], entries[2..];
    assert t1[0] == entries[1] && t1[1..] == t2 && t2[0] == entries[2] && t2[1..] == [];
    assert !IntendedCandidate(entries[2]);
    assert CollectIntended(t2, 7).found == [] && CollectIntended(t2, 7).next == 7;
    assert CollectIntended(t1, 7).found == [] && CollectIntended(t1, 7).next == 7;
    assert CollectIntended(entries, 7).found == [NamedC] && CollectIntended(entries, 7).next == 7;
    assert SortByIndex([NamedC]) == [NamedC];
  }

  /** The scan of `Menu`'s dictionary: `B` first (re-prepared), then `A`. */
  lemma CollectMenuTail(t: seq<Entry>, c: nat)
    requires t == [Entry("A", ItemField(ItemA)), Entry("_cls_index", OtherField)]
    ensures Collect(t, c).found == [NamedA]
    ensures Collect(t, c).next == c
  {
    Names();
    assert t[0].name == "A" && t[1].name == IndexAttr;
    assert t[1..][0] == t[1] && t[1..][1..] == [];
    assert Collect(t[1..], c).found == [] && Collect(t[1..], c).next == c;
  }

  /** One step of the scan over a nested menu class. */
  lemma CollectNestedStep(t: seq<Entry>, counter: nat)
    requires t != [] && Candidate(t[0]) && t[0].field.MenuField?
    ensures var p := Prepare(t[0].field.menu, counter);
            && Collect(t, counter).found == [p.root] + Collect(t[1..], p.next).found
            && Collect(t, counter).next == Collect(t[1..], p.next).next
  {
  }

  /** The scan from `B` on, for any nested class whose re-prepare at 7
      yields root `rb`. */
  lemma CollectMenuFromB(t: seq<Entry>, b: MenuClass, rb: Item)
    requires t == [Entry("B", MenuField(b)), Entry("A", ItemField(ItemA)), Entry("_cls_index", OtherField)]
    requires Prepare(b, 7).root == rb && Prepare(b, 7).next == 8
    ensures Collect(t, 7).found == [rb, NamedA]
    ensures Collect(t, 7).next == 8
  {
    assert t[0].name[..1] == "B";
    CollectNestedStep(t, 7);
    CollectMenuTail(t[1..], 8);
  }

  lemma CollectMenu(entries: seq<Entry>)
    requires entries == Namespace + [Entry("_cls_index", OtherField)]
    ensures Collect(entries, 7).found == [RootB2, NamedA]
    ensures Collect(entries, 7).next == 8
  {
    Names();
    assert entries[0].name == "__module__" && !Candidate(entries[0]);
    ReprepareB();
    CollectMenuFromB(entries[1..], ClassB1, RootB2);
  }

  lemma CollectMenuIntendedTail(t: seq<Entry>, c: nat)
    requires t == [Entry("A", ItemField(ItemA)), Entry("_cls_index", OtherField)]
    ensures CollectIntended(t, c).found == [NamedA]
    ensures CollectIntended(t, c).next == c
  {
    Names();
    assert |t[0].name| != |RootAttr| && IntendedCandidate(t[0]);
    assert !IntendedCandidate(t[1]);
    assert t[1..][0] == t[1] && t[1..][1..] == [];
    assert CollectIntended(t[1..], c).found == [] && CollectIntended(t[1..], c).next == c;
  }

  lemma CollectMenuIntendedFromB(t: seq<Entry>)
    requires t == [Entry("B", MenuField(ClassB1)), Entry("A", ItemField(ItemA)), Entry("_cls_index", OtherField)]
    ensures CollectIntended(t, 7).found == [RootB2Intended, NamedA]
    ensures CollectIntended(t, 7).next == 8
  {
    Names();
    ReprepareBIntended();
    assert |t[0].name| != |RootAttr| && IntendedCandidate(t[0]);
    CollectMenuIntendedTail(t[1..], 8);
    var p := PrepareIntended(ClassB1, 7);
    var s := CollectIntended(t[1..], p.next);
    assert CollectIntended(t, 7) == Scan([p.root] + s.found, [Entry("B", MenuField(p.cls))] + s.entries, s.next);
  }

  lemma CollectMenuIntended(entries: seq<Entry>)
    requires entries == Namespace + [Entry("_cls_index", OtherField)]
    ensures CollectIntended(entries, 7).found == [RootB2Intended, NamedA]
    ensures CollectIntended(entries, 7).next == 8
  {
    Names();
    assert entries[0].name == "__module__" && !IntendedCandidate(entries[0]);
    CollectMenuIntendedFromB(entries[1..]);
  }

  /** `A` (index 2) sorts before `B`'s root (index 4) although the
      dictionary yielded `B` first. */
  lemma SortMenuChildren(b: Item)
    requires b.index == 4
    ensures SortByIndex([b, NamedA]) == [NamedA, b]
  {
  }

  /** The class body of `Menu` with `_cls_index` stored. */
  lemma StoreMenuIndex()
    ensures Assign(Namespace, IndexAttr, OtherField) == Namespace + [Entry("_cls_index", OtherField)]
  {
    var t1, t2 := Namespace[1..], Namespace[2..];
    assert t1[1..] == t2 && t2[1..] == [];
    assert t2[0].name == "A" && t1[0].name == "B" && Namespace[0].name == "__module__";
    assert Lookup(t2, IndexAttr) == None;
    assert Lookup(t1, IndexAttr) == None;
    assert Namespace[0].name[1] != IndexAttr[1];
    assert Lookup(Namespace, IndexAttr) == None;
  }

  /** The declarations run in order. `Menu`'s root lists `A` before `B`'s
      second root, which holds `C` and `B`'s first root. */
  lemma DocumentedDeclaration()
    ensures DefineMenu(0, "Menu", None, BaseNamespace).next == 2
    ensures NewItem(2, SpecA) == (ItemA, 3)
    ensures NewItem(3, SpecC) == (ItemC, 4)
    ensures DefineMenu(4, "B", None, NamespaceB) == Prepared(RootB1, ClassB1, 6)
    ensures DefineMenu(6, "Menu", None, Namespace).root == RootMenu
    ensures DefineMenu(6, "Menu", None, Namespace).next == 9
  {
    LibraryBase();
    DefineB();
    StoreMenuIndex();
    CollectMenu(Namespace + [Entry("_cls_index", OtherField)]);
    SortMenuChildren(RootB2);
  }

  /** With the corrected `prepare`, `B`'s second root holds only `C`. */
  lemma IntendedDeclaration()
    ensures DefineMenuIntended(4, "B", None, NamespaceB) == Prepared(RootB1, ClassB1, 6)
    ensures DefineMenuIntended(6, "Menu", None, Namespace).root == RootMenuIntended
  {
    DefineB();
    StoreMenuIndex();
    CollectMenuIntended(Namespace + [Entry("_cls_index", OtherField)]);
    SortMenuChildren(RootB2Intended);
  }

  const RecA := Record(Some("A"), Some("/"), [], No, map[])
  const RecC := Record(Some("C"), None, [], Yes, map[])
  const RecB1 := Record(Some("B"), None, [RecC], Subitem, map[])
  const RecB2 := Record(Some("B"), None, [RecC, RecB1], Subitem, map[])

  /** The request after the handler's decorator activated `C`. */
  function ActivatedC(): Request {
    Activate(Request(None, 0), ItemC.id)
  }

  lemma RenderLeaves(env: Env)
    requires env.reverse("home") == Some("/")
    ensures Build(env, ActivatedC(), NamedA) == Success(Some(RecA))
    ensures Build(env, ActivatedC(), NamedC) == Success(Some(RecC))
  {
  }

  /** `B`'s first root renders `'subitem'` with `C` under it. */
  lemma RenderB1(env: Env)
    ensures Build(env, ActivatedC(), RootB1) == Success(Some(RecB1))
  {
    var req := ActivatedC();
    assert Build(env, req, NamedC) == Success(Some(RecC));
    assert [NamedC][1..] == [];
    var start := Record(Some("B"), None, [], No, map[]);
    assert Gather(env, req, [NamedC], start) == Success(RecB1);
  }

  /** `B`'s second root renders `'subitem'` with `C` and its first root. */
  lemma RenderB2(env: Env)
    ensures Build(env, ActivatedC(), RootB2) == Success(Some(RecB2))
  {
    var req := ActivatedC();
    RenderB1(env);
    assert Build(env, req, NamedC) == Success(Some(RecC));
    var start := Record(Some("B"), None, [], No, map[]);
    var acc1 := start.(items := [RecC], active := Subitem);
    assert [NamedC, RootB1][1..] == [RootB1] && [RootB1][1..] == [];
    assert Gather(env, req, [], RecB2) == Success(RecB2);
    assert acc1.items + [RecB1] == RecB2.items;
    assert Gather(env, req, [RootB1], acc1) == Success(RecB2);
    assert start.items + [RecC] == acc1.items;
    assert Gather(env, req, [NamedC, RootB1], start) == Success(RecB2);
  }

  /** Rendering a menu root that lists `A` and then a `'subitem'` record. */
  lemma RenderMenu(env: Env, b: Item, recB: Record)
    requires env.reverse("home") == Some("/")
    requires b.visibility.None? && recB.active == Subitem
    requires Build(env, ActivatedC(), b) == Success(Some(recB))
    ensures Build(env, ActivatedC(), Item(8, 6, Some("Menu"), NoRoute, None, map[], [NamedA, b])) ==
              Success(Some(Record(Some("Menu"), None, [RecA, recB], Subitem, map[])))
  {
    var req := ActivatedC();
    RenderLeaves(env);
    var start := Record(Some("Menu"), None, [], No, map[]);
    var acc1 := start.(items := [RecA]);
    var acc2 := start.(items := [RecA, recB], active := Subitem);
    assert [NamedA, b][1..] == [b] && [b][1..] == [];
    assert Gather(env, req, [], acc2) == Success(acc2);
    assert acc1.items + [recB] == acc2.items;
    assert Gather(env, req, [b], acc1) == Success(acc2);
    assert start.items + [RecA] == acc1.items;
    assert Gather(env, req, [NamedA, b], start) == Success(acc2);
  }

  /** Rendering `Menu` for a request that activated `C`: `B`'s record also
      holds the record of `B`'s first root. */
  lemma DocumentedRender(env: Env)
    requires env.reverse("home") == Some("/")
    ensures MenuBuild(env, ActivatedC(), Some(RootMenu)) ==
              Success(Some(Record(Some("Menu"), None,
                [Record(Some("A"), Some("/"), [], No, map[]),
                 Record(Some("B"), None,
                   [Record(Some("C"), None, [], Yes, map[]),
                    Record(Some("B"), None, [Record(Some("C"), None, [], Yes, map[])], Subitem, map[])],
                   Subitem, map[])],
                Subitem, map[])))
  {
    RenderB2(env);
    RenderMenu(env, RootB2, RecB2);
  }

  /** With the corrected `prepare`, `Menu` renders as documented: `B`
      holds only `C`. */
  lemma IntendedRender(env: Env)
    requires env.reverse("home") == Some("/")
    ensures MenuBuild(env, ActivatedC(), Some(RootMenuIntended)) ==
              Success(Some(Record(Some("Menu"), None,
                [Record(Some("A"), Some("/"), [], No, map[]),
                 Record(Some("B"), None, [Record(Some("C"), None, [], Yes, map[])], Subitem, map[])],
                Subitem, map[])))
  {
    RenderB1(env);
    assert RootB2Intended == RootB1.(id := 7);
    assert Build(env, ActivatedC(), RootB2Intended) == Success(Some(RecB1));
    RenderMenu(env, RootB2Intended, RecB1);
  }
}

=== FILE: index_sort.dfy ===
/** Ordering siblings by declaration index: `list.sort(key=lambda item: item._index)`.
    Python's sort is stable; `SortKeepsTies` states the same of this
    insertion sort. */
module IndexSort {
  import opened MenuItems

  predicate Sorted(s: seq<Item>) {
    forall i, j :: 0 <= i < j < |s| ==> s[i].index <= s[j].index
  }

  /** No two different items in `m` share a declaration index; the counter
      guarantees this for items that were each constructed once. */
  predicate IndexIdentifies(m: multiset<Item>) {
    forall x, y :: x in m && y in m && x.index == y.index ==> x == y
  }

  /** Places `x` before the first element whose index is not smaller. */
  function Insert(x: Item, s: seq<Item>): (r: seq<Item>)
    requires Sorted(s)
    ensures |r| == |s| + 1
    ensures r[0] == x || (s != [] && r[0] == s[0])
    ensures Sorted(r)
    ensures multiset(r) == multiset(s) + multiset{x}
  {
    if s == [] || x.index <= s[0].index then [x] + s
    else
      var head, rest := s[0], s[1..];
      var tail := Insert(x, rest);
      assert s == [head] + rest;
      assert multiset([head] + tail) == multiset{head} + multiset(tail);
      assert head.index <= tail[0].index;
      [head] + tail
  }

  function SortByIndex(s: seq<Item>): (r: seq<Item>)
    ensures Sorted(r)
    ensures multiset(r) == multiset(s)
  {
    if s == [] then []
    else
      assert s == [s[0]] + s[1..];
      Insert(s[0], SortByIndex(s[1..]))
  }

  /** Two sorted arrangements of the same items are equal when the index
      tells items apart. */
  lemma {:induction false} SortedArrangementUnique(a: seq<Item>, b: seq<Item>)
    requires Sorted(a) && Sorted(b)
    requires multiset(a) == multiset(b)
    requires IndexIdentifies(multiset(a))
    ensures a == b
    decreases |a|
  {
    if a == [] {
      assert |multiset(b)| == 0;
    } else {
      SameHead(a, b);
      var ta, tb := a[1..], b[1..];
      SplitHead(a);
      SplitHead(b);
      IndexIdentifiesSub(multiset(a), multiset(ta));
      SortedArrangementUnique(ta, tb);
      assert |a| == |b|;
      forall k | 0 < k < |a|
        ensures a[k] == b[k]
      {
        assert a[k] == ta[k - 1] && b[k] == tb[k - 1];
      }
    }
  }

  /** Removing the first element keeps the rest sorted and in the multiset. */
  lemma SplitHead(s: seq<Item>)
    requires s != [] && Sorted(s)
    ensures Sorted(s[1..])
    ensures multiset(s) == multiset{s[0]} + multiset(s[1..])
  {
    assert s == [s[0]] + s[1..];
  }

  lemma SameHead(a: seq<Item>, b: seq<Item>)
    requires a != []
    requires Sorted(a) && Sorted(b)
    requires multiset(a) == multiset(b)
    requires IndexIdentifies(multiset(a))
    ensures b != [] && a[0] == b[0]
  {
  }

  lemma IndexIdentifiesSub(m: multiset<Item>, sub: multiset<Item>)
    requires IndexIdentifies(m) && sub <= m
    ensures IndexIdentifies(sub)
  {
  }

  /** Sibling order after sorting does not depend on the order in which
      the class dictionary yields them. */
  lemma StorageOrderIrrelevant(a: seq<Item>, b: seq<Item>)
    requires multiset(a) == multiset(b)
    requires IndexIdentifies(multiset(a))
    ensures SortByIndex(a) == SortByIndex(b)
  {
    SortedArrangementUnique(SortByIndex(a), SortByIndex(b));
  }

  /** Sorting an already sorted list changes nothing. */
  lemma SortIdempotent(s: seq<Item>)
    ensures SortByIndex(SortByIndex(s)) == SortByIndex(s)
  {
    SortedIsFixed(SortByIndex(s));
  }

  lemma {:induction false} SortedIsFixed(s: seq<Item>)
    requires Sorted(s)
    ensures SortByIndex(s) == s
    decreases |s|
  {
    if s != [] {
      var tail := s[1..];
      assert Sorted(tail);
      SortedIsFixed(tail);
      assert s == [s[0]] + tail;
    }
  }

  /** The items of `s` whose declaration index is `k`, in their order in `s`. */
  function WithIndex(s: seq<Item>, k: nat): seq<Item> {
    if s == [] then []
    else (if s[0].index == k then [s[0]] else []) + WithIndex(s[1..], k)
  }

  /** `Insert` puts `x` before every item with the same index. */
  lemma {:induction false} InsertKeepsTies(x: Item, s: seq<Item>, k: nat)
    requires Sorted(s)
    ensures WithIndex(Insert(x, s), k) == (if x.index == k then [x] else []) + WithIndex(s, k)
    decreases |s|
  {
    if s == [] || x.index <= s[0].index {
      WithIndexCons(x, s, k);
    } else {
      var rest := s[1..];
      InsertKeepsTies(x, rest, k);
      WithIndexCons(s[0], Insert(x, rest), k);
      WithIndexCons(s[0], rest, k);
      assert s == [s[0]] + rest;
    }
  }

  lemma WithIndexCons(a: Item, t: seq<Item>, k: nat)
    ensures WithIndex([a] + t, k) == (if a.index == k then [a] else []) + WithIndex(t, k)
  {
  }

  /** The sort is stable: items sharing an index keep their input order. */
  lemma {:induction false} SortKeepsTies(s: seq<Item>, k: nat)
    ensures WithIndex(SortByIndex(s), k) == WithIndex(s, k)
    decreases |s|
  {
    if s != [] {
      SortKeepsTies(s[1..], k);
      InsertKeepsTies(s[0], SortByIndex(s[1..]), k);
    }
  }

  /** Items made one after another by construction sort back into
      construction order, whatever order they are stored in. */
  lemma ConstructionOrderRecovered(counter: nat, specs: seq<ItemSpec>, stored: seq<Item>)
    requires multiset(stored) == multiset(NewItems(counter, specs).0)
    ensures SortByIndex(stored) == NewItems(counter, specs).0
  {
    var made := NewItems(counter, specs).0;
    assert Sorted(made);
    forall x: Item, y: Item | x in multiset(made) && y in multiset(made) && x.index == y.index
      ensures x == y
    {
      var i :| 0 <= i < |made| && made[i] == x;
      var j :| 0 <= j < |made| && made[j] == y;
    }
    StorageOrderIrrelevant(stored, made);
    SortedIsFixed(made);
  }
}

=== FILE: menu.dfy ===
/** Menu classes: a `Menu` subclass whose attributes are menu items and
    nested menu classes. Defining the class reserves an index for it and
    assembles a synthesized root item (`prepare`), which `prepare` stores
    back into the class as `root_item`; the class then offers `activate`
    and `build` on that root. */
module Menus {
  import opened Wrappers
  import opened MenuItems
  import opened IndexSort

  /** The optional nested `Meta` block, `__` names already dropped: its
      `title` entry (absent, or present with a string or `None`), its route
      and visibility entries, and every other entry. */
  datatype Meta = Meta(title: Option<Option<string>>, route: Route, visibility: Option<Handle>, extras: Extras)

  /** What one class attribute holds: an item, a nested menu class, or
      anything else (methods, plain values, `None`). */
  datatype Field = ItemField(item: Item) | MenuField(menu: MenuClass) | OtherField

  /** One entry of the class dictionary. */
  datatype Entry = Entry(name: string, field: Field)

  /** A menu class object: its name, the index reserved when the class was
      defined (`_cls_index`), its `Meta` block, and its own dictionary in
      order. The dictionary holds the names of the class body and also what
      the library writes into the class: `_cls_index` and `root_item`. */
  datatype MenuClass = MenuClass(name: string, clsIndex: nat, meta: Option<Meta>, entries: seq<Entry>)

  /** The class attribute where the metaclass stores the reserved index. */
  const IndexAttr := "_cls_index"

  /** The class attribute where `prepare` stores the root. */
  const RootAttr := "root_item"

  /** The value of attribute `name`, looked up in dictionary order. */
  function Lookup(entries: seq<Entry>, name: string): Option<Field> {
    if entries == [] then None
    else if entries[0].name == name then Some(entries[0].field)
    else Lookup(entries[1..], name)
  }

  predicate HasKey(entries: seq<Entry>, name: string) {
    Lookup(entries, name).Some?
  }

  /** `setattr(cls, name, value)`: an existing key keeps its place and gets
      the new value; a new key goes at the end. */
  function Assign(entries: seq<Entry>, name: string, field: Field): (r: seq<Entry>)
    ensures Lookup(r, name) == Some(field)
    ensures forall n :: n != name ==> Lookup(r, n) == Lookup(entries, n)
    ensures HasKey(entries, name) ==> |r| == |entries| && forall i :: 0 <= i < |r| ==> r[i].name == entries[i].name
    ensures !HasKey(entries, name) ==> r == entries + [Entry(name, field)]
  {
    if entries == [] then [Entry(name, field)]
    else if entries[0].name == name then [Entry(name, field)] + entries[1..]
    else
      var rest := Assign(entries[1..], name, field);
      assert ([entries[0]] + rest)[1..] == rest;
      assert entries == [entries[0]] + entries[1..];
      [entries[0]] + rest
  }

  /** Attribute names `prepare` skips. */
  predicate Dunder(name: string) {
    |name| >= 2 && name[..2] == "__"
  }

  /** The attributes that become children of the root: not `__`-named, and
      an item or a nested menu class. */
  predicate Candidate(e: Entry) {
    !Dunder(e.name) && !e.field.OtherField?
  }

  function Candidates(entries: seq<Entry>): (r: seq<Entry>)
    ensures |r| <= |entries|
    ensures forall k :: 0 <= k < |r| ==> Candidate(r[k]) && r[k] in entries
    ensures forall e :: e in entries && Candidate(e) ==> e in r
  {
    if entries == [] then []
    else (if Candidate(entries[0]) then [entries[0]] else []) + Candidates(entries[1..])
  }

  /** Two fields of the same kind. */
  predicate SameKind(a: Field, b: Field) {
    a.ItemField? == b.ItemField? && a.MenuField? == b.MenuField?
  }

  /** `after` is the dictionary `before` once the nested menu classes it
      holds have been updated: same names in the same order, nested classes
      still nested classes, everything else untouched. */
  predicate SameShape(before: seq<Entry>, after: seq<Entry>) {
    && |before| == |after|
    && forall i :: 0 <= i < |before| ==>
         && after[i].name == before[i].name
         && SameKind(after[i].field, before[i].field)
         && (!before[i].field.MenuField? ==> after[i] == before[i])
  }

  /** The root's title: the `Meta` title when `Meta` has one, else the class name. */
  function RootTitle(c: MenuClass): Option<string> {
    if c.meta.Some? && c.meta.value.title.Some? then c.meta.value.title.value else Some(c.name)
  }

  /** The constructor arguments `prepare` passes for the root. */
  function RootSpec(c: MenuClass): ItemSpec {
    match c.meta
    case None => ItemSpec(NoRoute, None, RootTitle(c), map[])
    case Some(m) => ItemSpec(m.route, m.visibility, RootTitle(c), m.extras)
  }

  /** How the child collected for entry `e` relates to the entry: an item
      keeps everything but gets the attribute name as title when it had
      none; a nested menu contributes the root of a `prepare` of that class,
      run at some counter value. */
  ghost predicate CollectedFrom(e: Entry, x: Item) {
    match e.field
    case ItemField(item) =>
      && x.title == (if item.title.None? then Some(e.name) else item.title)
      && x == item.(title := x.title)
    case MenuField(m) => exists k: nat :: x == Prepare(m, k).root
    case OtherField => false
  }

  /** What the scan of a class dictionary returns: the children found, the
      dictionary with its nested classes in their re-prepared state, and
      the counter afterwards. */
  datatype Scan = Scan(found: seq<Item>, entries: seq<Entry>, next: nat)

  /** What `prepare` returns: the new root, the class with `root_item`
      stored, and the counter afterwards. */
  datatype Prepared = Prepared(root: Item, cls: MenuClass, next: nat)

  /** The scan of the class dictionary in its own order: item attributes get
      their default title, nested menu classes are prepared again (taking
      counter values, and storing their new root) and yield their root. */
  function Collect(entries: seq<Entry>, counter: nat): (r: Scan)
    decreases entries
    ensures counter <= r.next
    ensures |r.found| == |Candidates(entries)|
    ensures SameShape(entries, r.entries)
  {
    if entries == [] then Scan([], [], counter)
    else
      var e := entries[0];
      if !Candidate(e) then
        var s := Collect(entries[1..], counter);
        Scan(s.found, [e] + s.entries, s.next)
      else
        match e.field
        case ItemField(item) =>
          var named := if item.title.None? then item.(title := Some(e.name)) else item;
          var s := Collect(entries[1..], counter);
          Scan([named] + s.found, [e] + s.entries, s.next)
        case MenuField(m) =>
          var p := Prepare(m, counter);
          var s := Collect(entries[1..], p.next);
          Scan([p.root] + s.found, [Entry(e.name, MenuField(p.cls))] + s.entries, s.next)
  }

  /** `Menu.prepare`: build the root from `Meta` (title defaulting to the
      class name), give it the class's reserved index, attach the collected
      children sorted by declaration index, and store it as `root_item`. */
  function Prepare(c: MenuClass, counter: nat): (r: Prepared)
    decreases c
    ensures r.root.index == c.clsIndex
    ensures r.root.title == RootTitle(c)
    ensures c.meta.None? ==> r.root.route == NoRoute && r.root.visibility == None && r.root.extras == map[]
    ensures c.meta.Some? ==> r.root.route == c.meta.value.route && r.root.visibility == c.meta.value.visibility
                             && r.root.extras == c.meta.value.extras
    ensures counter <= r.root.id && r.next == r.root.id + 1
    ensures Sorted(r.root.items)
    ensures multiset(r.root.items) == multiset(Collect(c.entries, counter).found)
    ensures r.cls.name == c.name && r.cls.clsIndex == c.clsIndex && r.cls.meta == c.meta
    ensures Lookup(r.cls.entries, RootAttr) == Some(ItemField(r.root))
    ensures forall n :: n != RootAttr ==> Keeps(Lookup(c.entries, n), Lookup(r.cls.entries, n))
  {
    var s := Collect(c.entries, counter);
    var (root, next) := NewItem(s.next, RootSpec(c));
    var top := root.(index := c.clsIndex, items := SortByIndex(s.found));
    SameShapeLookup(c.entries, s.entries);
    Prepared(top, c.(entries := Assign(s.entries, RootAttr, ItemField(top))), next)
  }

  /** An attribute that existed keeps existing with a value of the same
      kind, and is unchanged unless it is a nested menu class. */
  predicate Keeps(before: Option<Field>, after: Option<Field>) {
    && before.Some? == after.Some?
    && (before.Some? ==> SameKind(before.value, after.value) && (!before.value.MenuField? ==> after == before))
  }

  lemma SameShapeTail(a: seq<Entry>, b: seq<Entry>)
    requires a != [] && SameShape(a, b)
    ensures SameShape(a[1..], b[1..])
  {
  }

  /** Updating nested classes keeps every attribute lookup of the same kind. */
  lemma {:induction false} SameShapeLookup(a: seq<Entry>, b: seq<Entry>)
    requires SameShape(a, b)
    ensures forall n :: Keeps(Lookup(a, n), Lookup(b, n))
    decreases |a|
  {
    if a != [] {
      SameShapeTail(a, b);
      SameShapeLookup(a[1..], b[1..]);
      assert a[0].name == b[0].name;
    }
  }

  /** Updating nested classes keeps the number of candidates. */
  lemma {:induction false} SameShapeCandidates(a: seq<Entry>, b: seq<Entry>)
    requires SameShape(a, b)
    ensures |Candidates(a)| == |Candidates(b)|
    decreases |a|
  {
    if a != [] {
      SameShapeTail(a, b);
      SameShapeCandidates(a[1..], b[1..]);
      assert Candidate(a[0]) == Candidate(b[0]);
    }
  }

  /** A new attribute at the end is a candidate of its own or nothing. */
  lemma {:induction false} CandidatesAppend(a: seq<Entry>, e: Entry)
    ensures Candidates(a + [e]) == Candidates(a) + (if Candidate(e) then [e] else [])
    decreases |a|
  {
    if a == [] {
      assert [] + [e] == [e];
    } else {
      assert (a + [e])[0] == a[0] && (a + [e])[1..] == a[1..] + [e];
      CandidatesAppend(a[1..], e);
    }
  }

  /** Each collected child comes from the candidate attribute at the same
      position, in dictionary order. */
  lemma {:induction false} CollectFaithful(entries: seq<Entry>, counter: nat)
    ensures forall k :: 0 <= k < |Candidates(entries)| ==>
              CollectedFrom(Candidates(entries)[k], Collect(entries, counter).found[k])
    decreases entries
  {
    if entries != [] {
      var e := entries[0];
      var tail := entries[1..];
      var next := if Candidate(e) && e.field.MenuField? then Prepare(e.field.menu, counter).next else counter;
      var r := Collect(entries, counter).found;
      var t := Collect(tail, next).found;
      CollectFaithful(tail, next);
      CollectHead(entries, counter);
      if Candidate(e) {
        PairedCons(CollectedFrom, e, Candidates(tail), r, t);
      }
    }
  }

  /** Position-wise pairing survives putting a related pair in front. */
  lemma PairedCons(rel: (Entry, Item) -> bool, e: Entry, cands: seq<Entry>, r: seq<Item>, t: seq<Item>)
    requires r != [] && r[1..] == t && |t| == |cands|
    requires rel(e, r[0])
    requires forall k :: 0 <= k < |cands| ==> rel(cands[k], t[k])
    ensures forall k :: 0 <= k < |[e] + cands| ==> rel(([e] + cands)[k], r[k])
  {
  }

  /** One step of the scan, on the children: a skipped head adds nothing,
      and a candidate head adds, in front, the child collected from it. */
  lemma CollectHead(entries: seq<Entry>, counter: nat)
    requires entries != []
    ensures var e := entries[0];
            var next := if Candidate(e) && e.field.MenuField? then Prepare(e.field.menu, counter).next else counter;
            var r := Collect(entries, counter).found;
            var t := Collect(entries[1..], next).found;
            && (!Candidate(e) ==> Candidates(entries) == Candidates(entries[1..]) && r == t)
            && (Candidate(e) ==> Candidates(entries) == [e] + Candidates(entries[1..]) && r[1..] == t
                                 && CollectedFrom(e, r[0]))
  {
  }

  /** Entry `i` of the scanned dictionary is a nested menu class whose
      stored `root_item` is one of the children the scan collected. */
  predicate StoresChild(s: Scan, i: nat) {
    && i < |s.entries|
    && s.entries[i].field.MenuField?
    && exists x :: x in s.found && Lookup(s.entries[i].field.menu.entries, RootAttr) == Some(ItemField(x))
  }

  /** One step of the scan: the rest of the dictionary is scanned with the
      counter the head leaves behind, and a nested head is replaced by its
      re-prepared class, whose root is the first child. */
  lemma CollectStep(entries: seq<Entry>, counter: nat)
    requires entries != []
    ensures var e := entries[0];
            var nested := Candidate(e) && e.field.MenuField?;
            var next := if nested then Prepare(e.field.menu, counter).next else counter;
            var s := Collect(entries, counter);
            var t := Collect(entries[1..], next);
            && s.entries[1..] == t.entries
            && (forall x :: x in t.found ==> x in s.found)
            && (nested ==> s.found[0] == Prepare(e.field.menu, counter).root
                           && s.entries[0] == Entry(e.name, MenuField(Prepare(e.field.menu, counter).cls)))
  {
  }

  /** The scan leaves each nested menu class in the dictionary holding, as
      its `root_item`, the very node the scan collected for it. */
  lemma {:induction false} NestedRootStored(entries: seq<Entry>, counter: nat, i: nat)
    requires i < |entries| && Candidate(entries[i]) && entries[i].field.MenuField?
    ensures StoresChild(Collect(entries, counter), i)
    decreases |entries|
  {
    if i == 0 {
      NestedHeadStored(entries, counter);
    } else {
      var e := entries[0];
      var next := if Candidate(e) && e.field.MenuField? then Prepare(e.field.menu, counter).next else counter;
      assert entries[1..][i - 1] == entries[i];
      NestedRootStored(entries[1..], next, i - 1);
      StoresChildTail(entries, counter, i);
    }
  }

  /** A nested class at the head of the dictionary stores the first child. */
  lemma NestedHeadStored(entries: seq<Entry>, counter: nat)
    requires entries != [] && Candidate(entries[0]) && entries[0].field.MenuField?
    ensures StoresChild(Collect(entries, counter), 0)
  {
  }

  /** What the scan of the rest stores at position `i - 1`, the whole scan
      stores at position `i`. */
  lemma StoresChildTail(entries: seq<Entry>, counter: nat, i: nat)
    requires 0 < i
    requires entries != []
    requires var e := entries[0];
             var next := if Candidate(e) && e.field.MenuField? then Prepare(e.field.menu, counter).next else counter;
             StoresChild(Collect(entries[1..], next), i - 1)
    ensures StoresChild(Collect(entries, counter), i)
  {
  }

  /** After `prepare` the root's children are exactly the collected
      candidates: one per candidate attribute, each related to its entry. */
  lemma PrepareChildren(c: MenuClass, counter: nat)
    ensures var root := Prepare(c, counter).root;
            && |root.items| == |Candidates(c.entries)|
            && (forall x :: x in root.items ==> exists e :: e in Candidates(c.entries) && CollectedFrom(e, x))
            && (forall e :: e in c.entries && Candidate(e) ==> exists x :: x in root.items && CollectedFrom(e, x))
  {
    var root := Prepare(c, counter).root;
    var found := Collect(c.entries, counter).found;
    CollectFaithful(c.entries, counter);
    Paired(root.items, found, Candidates(c.entries));
  }

  /** A rearrangement of children paired position by position with
      candidates relates each child to some candidate and back. */
  lemma Paired(items: seq<Item>, found: seq<Item>, cands: seq<Entry>)
    requires multiset(items) == multiset(found) && |found| == |cands|
    requires forall k :: 0 <= k < |cands| ==> CollectedFrom(cands[k], found[k])
    ensures |items| == |cands|
    ensures forall x :: x in items ==> exists e :: e in cands && CollectedFrom(e, x)
    ensures forall e :: e in cands ==> exists x :: x in items && CollectedFrom(e, x)
  {
    SameElements(items, found);
    forall x | x in items
      ensures exists e :: e in cands && CollectedFrom(e, x)
    {
      var k :| 0 <= k < |found| && found[k] == x;
      assert cands[k] in cands;
    }
    forall e | e in cands
      ensures exists x :: x in items && CollectedFrom(e, x)
    {
      var k :| 0 <= k < |cands| && cands[k] == e;
      assert found[k] in found;
    }
  }

  /** Two arrangements of the same multiset have the same length and members. */
  lemma SameElements(a: seq<Item>, b: seq<Item>)
    requires multiset(a) == multiset(b)
    ensures |a| == |b|
    ensures forall x :: x in a <==> x in b
  {
    assert |a| == |multiset(a)| == |multiset(b)| == |b|;
    forall x
      ensures x in a <==> x in b
    {
      assert x in a <==> x in multiset(a);
      assert x in b <==> x in multiset(b);
    }
  }

  /** The `class X(Menu)` statement once its body is evaluated: the class
      takes the counter's value as its reserved index and stores it as
      `_cls_index`, then `prepare` runs with the counter that follows. */
  function DefineMenu(counter: nat, name: string, meta: Option<Meta>, namespace: seq<Entry>): (r: Prepared)
    ensures r.cls.name == name && r.cls.clsIndex == counter && r.cls.meta == meta
    ensures Lookup(r.cls.entries, IndexAttr) == Some(OtherField)
    ensures Lookup(r.cls.entries, RootAttr) == Some(ItemField(r.root))
    ensures forall n :: n != IndexAttr && n != RootAttr ==> Keeps(Lookup(namespace, n), Lookup(r.cls.entries, n))
    ensures r.root.index == counter
    ensures counter < r.root.id < r.next
    ensures r.root.title == RootTitle(r.cls)
    ensures Sorted(r.root.items)
  {
    Prepare(MenuClass(name, counter, meta, Assign(namespace, IndexAttr, OtherField)), counter + 1)
  }

  /** Why a class statement fails. */
  datatype DefineError = UnboundName(name: string)

  /** The metaclass's `__init__` as written: its first statement passes
      `self` to `super`, but the method's first parameter is `cls` and the
      module binds no `self`, so the call raises `NameError` before the
      class reserves an index or is prepared. */
  function DefineMenuAsWritten(counter: nat, name: string, meta: Option<Meta>, namespace: seq<Entry>): (r: Result<Prepared, DefineError>)
    ensures r.Failure? && r.error == UnboundName("self")
  {
    Failure(UnboundName("self"))
  }

  /** A dictionary that holds no nested menu class. */
  predicate Flat(entries: seq<Entry>) {
    forall i :: 0 <= i < |entries| ==> !entries[i].field.MenuField?
  }

  /** A scan over a dictionary that holds no nested menu class constructs
      nothing, so the counter does not move. */
  lemma {:induction false} FlatScanKeepsCounter(entries: seq<Entry>, counter: nat)
    requires Flat(entries)
    ensures Collect(entries, counter).next == counter
    decreases |entries|
  {
    if entries != [] {
      assert forall i :: 0 <= i < |entries[1..]| ==> entries[1..][i] == entries[i + 1];
      FlatScanKeepsCounter(entries[1..], counter);
    }
  }

  /** `prepare` on a class without `root_item` appends that attribute, and
      with it one more candidate, to the class dictionary. */
  lemma StoredRootIsLastCandidate(c: MenuClass, counter: nat)
    requires !HasKey(c.entries, RootAttr)
    ensures var first := Prepare(c, counter);
            var s := Collect(c.entries, counter);
            && |Candidates(s.entries)| == |Candidates(c.entries)|
            && Candidates(first.cls.entries) == Candidates(s.entries) + [Entry(RootAttr, ItemField(first.root))]
  {
    var first := Prepare(c, counter);
    var s := Collect(c.entries, counter);
    SameShapeLookup(c.entries, s.entries);
    assert Lookup(s.entries, RootAttr) == None by {
      assert Keeps(Lookup(c.entries, RootAttr), Lookup(s.entries, RootAttr));
    }
    var stale := Entry(RootAttr, ItemField(first.root));
    assert first.cls.entries == s.entries + [stale];
    CandidatesAppend(s.entries, stale);
    assert RootAttr[..2] == "ro";
    assert Candidate(stale);
    SameShapeCandidates(c.entries, s.entries);
  }

  /** Preparing again a class that one `prepare` has stored a root in
      collects that root: the new root has one child more, and that extra
      child is the old root with its whole subtree. */
  lemma ReprepareCollectsStaleRoot(c: MenuClass, counter: nat, later: nat)
    requires !HasKey(c.entries, RootAttr)
    ensures var first := Prepare(c, counter);
            var again := Prepare(first.cls, later);
            && |again.root.items| == |first.root.items| + 1
            && exists x :: x in again.root.items && x.id == first.root.id && x.index == c.clsIndex
                           && x.items == first.root.items
  {
    var first := Prepare(c, counter);
    var s1 := Collect(c.entries, counter);
    var again := Prepare(first.cls, later);
    var s2 := Collect(first.cls.entries, later);
    StoredRootIsLastCandidate(c, counter);
    SameElements(first.root.items, s1.found);
    SameElements(again.root.items, s2.found);
    var k := |Candidates(s1.entries)|;
    var stale := Entry(RootAttr, ItemField(first.root));
    assert Candidates(first.cls.entries)[k] == stale;
    CollectFaithful(first.cls.entries, later);
    var x := s2.found[k];
    assert CollectedFrom(stale, x);
    assert x in again.root.items;
  }

  /** A class definition followed by the re-prepare an enclosing class
      performs: the nested root gains the class's first root as a child. */
  lemma ReprepareAddsStaleRoot(counter: nat, name: string, meta: Option<Meta>, namespace: seq<Entry>)
    requires !HasKey(namespace, RootAttr)
    ensures var first := DefineMenu(counter, name, meta, namespace);
            var again := Prepare(first.cls, first.next);
            && |again.root.items| == |first.root.items| + 1
            && exists x :: x in again.root.items && x.id == first.root.id && x.index == counter
                           && x.items == first.root.items
  {
    var c0 := MenuClass(name, counter, meta, Assign(namespace, IndexAttr, OtherField));
    assert |RootAttr| != |IndexAttr|;
    assert Lookup(c0.entries, RootAttr) == Lookup(namespace, RootAttr);
    var first := Prepare(c0, counter + 1);
    assert DefineMenu(counter, name, meta, namespace) == first;
    ReprepareCollectsStaleRoot(c0, counter + 1, first.next);
    var again := Prepare(first.cls, first.next);
    var x :| x in again.root.items && x.id == first.root.id && x.index == counter && x.items == first.root.items;
  }

  /** The attributes the corrected scan turns into children: candidates
      other than the library's own `root_item`. */
  predicate IntendedCandidate(e: Entry) {
    Candidate(e) && e.name != RootAttr
  }

  function IntendedCandidates(entries: seq<Entry>): (r: seq<Entry>)
    ensures |r| <= |entries|
    ensures forall k :: 0 <= k < |r| ==> IntendedCandidate(r[k]) && r[k] in entries
    ensures forall e :: e in entries && IntendedCandidate(e) ==> e in r
  {
    if entries == [] then []
    else (if IntendedCandidate(entries[0]) then [entries[0]] else []) + IntendedCandidates(entries[1..])
  }

  lemma {:induction false} SameShapeIntendedCandidates(a: seq<Entry>, b: seq<Entry>)
    requires SameShape(a, b)
    ensures |IntendedCandidates(a)| == |IntendedCandidates(b)|
    decreases |a|
  {
    if a != [] {
      SameShapeTail(a, b);
      SameShapeIntendedCandidates(a[1..], b[1..]);
      assert IntendedCandidate(a[0]) == IntendedCandidate(b[0]);
    }
  }

  /** The corrected scan: as `Collect`, but the `root_item` attribute that
      `prepare` itself wrote is skipped like a `__` name. */
  function CollectIntended(entries: seq<Entry>, counter: nat): (r: Scan)
    decreases entries
    ensures counter <= r.next
    ensures |r.found| == |IntendedCandidates(entries)|
    ensures SameShape(entries, r.entries)
  {
    if entries == [] then Scan([], [], counter)
    else
      var e := entries[0];
      if !IntendedCandidate(e) then
        var s := CollectIntended(entries[1..], counter);
        Scan(s.found, [e] + s.entries, s.next)
      else
        match e.field
        case ItemField(item) =>
          var named := if item.title.None? then item.(title := Some(e.name)) else item;
          var s := CollectIntended(entries[1..], counter);
          Scan([named] + s.found, [e] + s.entries, s.next)
        case MenuField(m) =>
          var p := PrepareIntended(m, counter);
          var s := CollectIntended(entries[1..], p.next);
          Scan([p.root] + s.found, [Entry(e.name, MenuField(p.cls))] + s.entries, s.next)
  }

  /** `CollectedFrom` for the corrected scan: a nested menu contributes the
      root of a corrected `prepare` of that class. */
  ghost predicate IntendedCollectedFrom(e: Entry, x: Item) {
    match e.field
    case ItemField(item) =>
      && x.title == (if item.title.None? then Some(e.name) else item.title)
      && x == item.(title := x.title)
    case MenuField(m) => exists k: nat :: x == PrepareIntended(m, k).root
    case OtherField => false
  }

  /** Each child of the corrected scan comes from the declared attribute at
      the same position, `root_item` not among them. */
  lemma {:induction false} CollectIntendedFaithful(entries: seq<Entry>, counter: nat)
    ensures forall k :: 0 <= k < |IntendedCandidates(entries)| ==>
              IntendedCollectedFrom(IntendedCandidates(entries)[k], CollectIntended(entries, counter).found[k])
    decreases entries
  {
    if entries != [] {
      var e := entries[0];
      var tail := entries[1..];
      var next := if IntendedCandidate(e) && e.field.MenuField? then PrepareIntended(e.field.menu, counter).next else counter;
      var r := CollectIntended(entries, counter).found;
      var t := CollectIntended(tail, next).found;
      CollectIntendedFaithful(tail, next);
      CollectIntendedHead(entries, counter);
      if IntendedCandidate(e) {
        PairedCons(IntendedCollectedFrom, e, IntendedCandidates(tail), r, t);
      }
    }
  }

  /** `CollectHead` for the corrected scan. */
  lemma CollectIntendedHead(entries: seq<Entry>, counter: nat)
    requires entries != []
    ensures var e := entries[0];
            var next := if IntendedCandidate(e) && e.field.MenuField? then PrepareIntended(e.field.menu, counter).next else counter;
            var r := CollectIntended(entries, counter).found;
            var t := CollectIntended(entries[1..], next).found;
            && (!IntendedCandidate(e) ==> IntendedCandidates(entries) == IntendedCandidates(entries[1..]) && r == t)
            && (IntendedCandidate(e) ==> IntendedCandidates(entries) == [e] + IntendedCandidates(entries[1..]) && r[1..] == t
                                         && IntendedCollectedFrom(e, r[0]))
  {
  }

  /** The corrected `prepare`, built on the corrected scan. */
  function PrepareIntended(c: MenuClass, counter: nat): (r: Prepared)
    decreases c
    ensures r.root.index == c.clsIndex
    ensures r.root.title == RootTitle(c)
    ensures counter <= r.root.id && r.next == r.root.id + 1
    ensures Sorted(r.root.items)
    ensures multiset(r.root.items) == multiset(CollectIntended(c.entries, counter).found)
    ensures r.cls.name == c.name && r.cls.clsIndex == c.clsIndex && r.cls.meta == c.meta
    ensures Lookup(r.cls.entries, RootAttr) == Some(ItemField(r.root))
  {
    var s := CollectIntended(c.entries, counter);
    var (root, next) := NewItem(s.next, RootSpec(c));
    var top := root.(index := c.clsIndex, items := SortByIndex(s.found));
    Prepared(top, c.(entries := Assign(s.entries, RootAttr, ItemField(top))), next)
  }

  /** Class definition with the corrected `prepare`. */
  function DefineMenuIntended(counter: nat, name: string, meta: Option<Meta>, namespace: seq<Entry>): (r: Prepared)
    ensures r.cls.name == name && r.cls.clsIndex == counter && r.cls.meta == meta
    ensures Lookup(r.cls.entries, RootAttr) == Some(ItemField(r.root))
    ensures r.root.index == counter
    ensures counter < r.root.id < r.next
    ensures Sorted(r.root.items)
  {
    PrepareIntended(MenuClass(name, counter, meta, Assign(namespace, IndexAttr, OtherField)), counter + 1)
  }

  /** Storing `root_item` does not change what the corrected scan sees. */
  lemma {:induction false} AssignRootInvisible(entries: seq<Entry>, f: Field)
    ensures |IntendedCandidates(Assign(entries, RootAttr, f))| == |IntendedCandidates(entries)|
    decreases |entries|
  {
    var r := Assign(entries, RootAttr, f);
    if entries != [] && entries[0].name != RootAttr {
      AssignRootInvisible(entries[1..], f);
      assert r == [entries[0]] + Assign(entries[1..], RootAttr, f);
      assert r[1..] == Assign(entries[1..], RootAttr, f);
    } else if entries != [] {
      assert r[1..] == entries[1..];
    }
  }

  /** Storing `root_item` does not change what the corrected scan collects,
      nor the counter values it takes. */
  lemma {:induction false} AssignRootHidden(entries: seq<Entry>, f: Field, counter: nat)
    ensures CollectIntended(Assign(entries, RootAttr, f), counter).found == CollectIntended(entries, counter).found
    decreases |entries|
  {
    var r := Assign(entries, RootAttr, f);
    if entries == [] {
      assert !IntendedCandidate(r[0]) && r[1..] == [];
    } else if entries[0].name == RootAttr {
      assert !IntendedCandidate(r[0]) && !IntendedCandidate(entries[0]) && r[1..] == entries[1..];
    } else {
      var e := entries[0];
      assert r[0] == e && r[1..] == Assign(entries[1..], RootAttr, f);
      var next := if IntendedCandidate(e) && e.field.MenuField? then PrepareIntended(e.field.menu, counter).next else counter;
      AssignRootHidden(entries[1..], f, next);
    }
  }

  /** Over a dictionary with no nested menu class, the corrected scan
      changes nothing and collects the same children at any counter. */
  lemma {:induction false} FlatIntendedScan(entries: seq<Entry>, a: nat, b: nat)
    requires Flat(entries)
    ensures CollectIntended(entries, a).entries == entries
    ensures CollectIntended(entries, a).found == CollectIntended(entries, b).found
    decreases |entries|
  {
    if entries != [] {
      assert Flat(entries[1..]) by {
        assert forall i :: 0 <= i < |entries[1..]| ==> entries[1..][i] == entries[i + 1];
      }
      assert !entries[0].field.MenuField?;
      FlatIntendedScan(entries[1..], a, b);
    }
  }

  /** With the correction, preparing a class again, any number of counter
      values later, gives a root with the same number of children; when the
      class holds no nested menu class, which would be given fresh nodes,
      the children are the very same. */
  lemma ReprepareIntendedStable(c: MenuClass, counter: nat, later: nat)
    ensures var first := PrepareIntended(c, counter);
            |PrepareIntended(first.cls, later).root.items| == |first.root.items|
    ensures var first := PrepareIntended(c, counter);
            Flat(c.entries) ==> PrepareIntended(first.cls, later).root.items == first.root.items
  {
    var first := PrepareIntended(c, counter);
    var s1 := CollectIntended(c.entries, counter);
    var again := PrepareIntended(first.cls, later);
    var s2 := CollectIntended(first.cls.entries, later);
    SameElements(first.root.items, s1.found);
    SameElements(again.root.items, s2.found);
    AssignRootInvisible(s1.entries, ItemField(first.root));
    SameShapeIntendedCandidates(c.entries, s1.entries);
    if Flat(c.entries) {
      FlatIntendedScan(c.entries, counter, later);
      assert first.cls.entries == Assign(c.entries, RootAttr, ItemField(first.root));
      AssignRootHidden(c.entries, ItemField(first.root), later);
      assert s2.found == s1.found;
    }
  }

  /** `Menu.activate`'s request update: add the class's root. With no root
      (never prepared) Python adds `None`, which matches no node. */
  function MenuActivate(req: Request, root: Option<Item>): (r: Request)
    ensures r.activeMenus.Some?
    ensures r.context == req.context
    ensures ActiveSet(r) == ActiveSet(req) + (if root.Some? then {root.value.id} else {})
  {
    match root
    case Some(item) => Activate(req, item.id)
    case None => req.(activeMenus := Some(ActiveSet(req)))
  }

  /** `Menu.build`: render the root, or fail when the class has none. */
  function MenuBuild(env: Env, req: Request, root: Option<Item>): (r: Result<Option<Record>, Error>)
    ensures r == Failure(NotPrepared) <==> root.None?
    ensures root.Some? ==> r == Build(env, req, root.value)
  {
    match root
    case None => Failure(NotPrepared)
    case Some(item) => Build(env, req, item)
  }
}

=== FILE: menu_item.dfy ===
/** A navigation-menu node (`MenuItem`) and what one request does with it:
    marking nodes active, choosing a node's URL, and rendering the tree into
    nested records for a template. */
module MenuItems {
  import opened Wrappers

  /** The identity of a `MenuItem` object; the per-request activation set
      holds identities, not values. */
  type NodeId = nat

  /** Names one caller-supplied function: a visibility predicate or a
      callable route. What it computes is given by an `Env`. */
  type Handle = nat

  /** A rendered link: a string or Python's `None`. */
  type Url = Option<string>

  /** The values extra keyword arguments may carry; they are copied into the
      rendered record untouched. */
  datatype Value = Null | Flag(b: bool) | Number(n: int) | Text(s: string)

  /** Keys an item's extra keyword arguments never carry in this model:
      `title`, `route` and `visibility` are named constructor parameters, and
      `url`, `items` and `active` would overwrite the rendered record's own
      fields. */
  const ReservedKeys: set<string> := {"title", "route", "visibility", "url", "items", "active"}

  type Extras = m: map<string, Value> | m.Keys !! ReservedKeys witness map[]

  /** A link target: none, a callable `(request, node) -> url`, or a string
      that is either a literal (`!`-prefixed) or a route name. */
  datatype Route = NoRoute | Callable(handle: Handle) | Path(text: string)

  datatype Item = Item(
    id: NodeId,
    index: nat,               // declaration order; equals `id` except for a menu's root
    title: Option<string>,
    route: Route,
    visibility: Option<Handle>,
    extras: Extras,
    items: seq<Item>)

  /** A request: its activation set (absent until some handler activates a
      node) and an opaque stand-in for everything else predicates may read. */
  datatype Request = Request(activeMenus: Option<set<NodeId>>, context: nat)

  /** The code this library calls but does not own: the caller's visibility
      predicates and callable routes, and the framework's route resolver
      (`None` when the route name is unknown). */
  datatype Env = Env(
    visible: (Handle, Request, NodeId) -> bool,
    call: (Handle, Request, NodeId) -> Url,
    reverse: string -> Option<string>)

  datatype Error = NoReverseMatch(route: string) | NotPrepared

  /** The rendered `active` value: `False`, `True` or `'subitem'`. */
  datatype Active = No | Yes | Subitem

  datatype Record = Record(title: Option<string>, url: Url, items: seq<Record>, active: Active, extras: Extras)

  /* ---------------------------------------------------------------------- */
  /* Construction and the declaration counter                               */
  /* ---------------------------------------------------------------------- */

  /** The arguments of one `MenuItem(...)` call. */
  datatype ItemSpec = ItemSpec(route: Route, visibility: Option<Handle>, title: Option<string>, extras: Extras)

  /** `MenuItem(...)`: the new node takes the counter's value as its identity
      and declaration index, starts with no children, and the counter moves on. */
  function NewItem(counter: nat, spec: ItemSpec): (r: (Item, nat))
    ensures r.1 == counter + 1
    ensures r.0.id == counter && r.0.index == counter && r.0.items == []
    ensures r.0.title == spec.title && r.0.route == spec.route
    ensures r.0.visibility == spec.visibility && r.0.extras == spec.extras
  {
    (Item(counter, counter, spec.title, spec.route, spec.visibility, spec.extras, []), counter + 1)
  }

  /** A run of constructions in program order, threading the counter. */
  function NewItems(counter: nat, specs: seq<ItemSpec>): (r: (seq<Item>, nat))
    decreases |specs|
    ensures |r.0| == |specs| && r.1 == counter + |specs|
    ensures forall i :: 0 <= i < |r.0| ==> counter <= r.0[i].index < r.1 && r.0[i].id == r.0[i].index
    ensures forall i, j :: 0 <= i < j < |r.0| ==> r.0[i].index < r.0[j].index
    ensures forall i, j :: 0 <= i < j < |r.0| ==> r.0[i].id != r.0[j].id
  {
    if specs == [] then ([], counter)
    else
      var (first, next) := NewItem(counter, specs[0]);
      var (rest, last) := NewItems(next, specs[1..]);
      ([first] + rest, last)
  }

  /* ---------------------------------------------------------------------- */
  /* Activation                                                             */
  /* ---------------------------------------------------------------------- */

  /** The request's activation set, empty when it has none yet. */
  function ActiveSet(req: Request): set<NodeId> {
    if req.activeMenus.Some? then req.activeMenus.value else {}
  }

  predicate IsActive(req: Request, id: NodeId) {
    req.activeMenus.Some? && id in req.activeMenus.value
  }

  /** The request update done by `MenuItem.activate`'s wrapper before it calls
      the handler: create the set if absent, then add the node. */
  function Activate(req: Request, id: NodeId): (r: Request)
    ensures r.activeMenus == Some(ActiveSet(req) + {id})
    ensures r.context == req.context
    ensures forall n :: IsActive(r, n) <==> n == id || IsActive(req, n)
  {
    match req.activeMenus
    case None =>
      assert ActiveSet(req) + {id} == {id};
      req.(activeMenus := Some({id}))
    case Some(s) => req.(activeMenus := Some(s + {id}))
  }

  /** Handlers stacked in either order leave the same activation set. */
  lemma ActivateCommutes(req: Request, a: NodeId, b: NodeId)
    ensures Activate(Activate(req, a), b) == Activate(Activate(req, b), a)
  {
    assert ActiveSet(req) + {a} + {b} == ActiveSet(req) + {b} + {a};
  }

  /* ---------------------------------------------------------------------- */
  /* URL selection                                                          */
  /* ---------------------------------------------------------------------- */

  /** A route string that is a literal URL behind the escape marker `!`. */
  predicate Escaped(text: string) {
    |text| > 0 && text[0] == '!'
  }

  /** `make_url`. */
  function MakeUrl(env: Env, req: Request, node: Item): (r: Result<Url, Error>)
    ensures node.route.NoRoute? ==> r == Success(None)
    ensures node.route.Callable? ==> r == Success(env.call(node.route.handle, req, node.id))
    ensures node.route.Path? && Escaped(node.route.text) ==> r == Success(Some(node.route.text[1..]))
    ensures r.Failure? <==> node.route.Path? && !Escaped(node.route.text) && env.reverse(node.route.text).None?
    ensures r.Failure? ==> r.error == NoReverseMatch(node.route.text)
    ensures node.route.Path? && !Escaped(node.route.text) && r.Success? ==>
              r.value == env.reverse(node.route.text)
  {
    match node.route
    case NoRoute => Success(None)
    case Callable(h) => Success(env.call(h, req, node.id))
    case Path(text) =>
      if Escaped(text) then Success(Some(text[1..]))
      else
        match env.reverse(text)
        case Some(url) => Success(Some(url))
        case None => Failure(NoReverseMatch(text))
  }

  /** The route resolver is consulted only for unescaped route names: a
      literal `"!" + p` yields `p` whatever the resolver would say. */
  lemma LiteralSkipsResolver(env: Env, req: Request, node: Item, p: string, resolver: string -> Option<string>)
    requires node.route == Path("!" + p)
    ensures MakeUrl(env, req, node) == Success(Some(p))
    ensures MakeUrl(env.(reverse := resolver), req, node) == MakeUrl(env, req, node)
  {
  }

  /* ---------------------------------------------------------------------- */
  /* Rendering                                                              */
  /* ---------------------------------------------------------------------- */

  /** The node has a visibility predicate and it says no for this request. */
  predicate Hidden(env: Env, req: Request, node: Item) {
    node.visibility.Some? && !env.visible(node.visibility.value, req, node.id)
  }

  /** `MenuItem.build`: `None` for a pruned node, otherwise its record. The
      only failure is an unknown route name, raised by the resolver. */
  function Build(env: Env, req: Request, node: Item): (r: Result<Option<Record>, Error>)
    decreases node
    ensures r.Failure? ==> r.error.NoReverseMatch?
    ensures r == Success(None) <==> Hidden(env, req, node)
    ensures r.Success? && r.value.Some? ==>
              var rec := r.value.value;
              && rec.title == node.title
              && rec.extras == node.extras
              && MakeUrl(env, req, node) == Success(rec.url)
              && |rec.items| <= |node.items|
              && (rec.active == Yes <==> IsActive(req, node.id))
  {
    if Hidden(env, req, node) then Success(None)
    else
      var url :- MakeUrl(env, req, node);
      var start := Record(node.title, url, [], if IsActive(req, node.id) then Yes else No, node.extras);
      var rec :- Gather(env, req, node.items, start);
      Success(Some(rec))
  }

  /** The loop over the children: build each in order, drop the pruned ones,
      append the rest, and turn a falsy `active` into `Subitem` as soon as an
      appended child is truthy. */
  function Gather(env: Env, req: Request, kids: seq<Item>, acc: Record): (r: Result<Record, Error>)
    decreases kids
    ensures r.Failure? ==> r.error.NoReverseMatch?
    ensures r.Success? ==>
              && r.value.title == acc.title
              && r.value.url == acc.url
              && r.value.extras == acc.extras
              && |acc.items| <= |r.value.items| <= |acc.items| + |kids|
              && r.value.items[..|acc.items|] == acc.items
              && (r.value.active == Yes <==> acc.active == Yes)
  {
    if kids == [] then Success(acc)
    else
      var built :- Build(env, req, kids[0]);
      match built
      case None => Gather(env, req, kids[1..], acc)
      case Some(item) => Gather(env, req, kids[1..], Absorb(acc, item))
  }

  /** One iteration for an emitted child: append it, and turn a falsy
      `active` into `Subitem` when the child is truthy. */
  function Absorb(acc: Record, item: Record): Record {
    var active := if item.active != No && acc.active == No then Subitem else acc.active;
    acc.(items := acc.items + [item], active := active)
  }

  /* The reference reading of the render, and its agreement with the loop. */

  /** The records of the children that are not pruned, in child order; the
      first failing child's error otherwise. */
  function Emitted(env: Env, req: Request, kids: seq<Item>): (r: Result<seq<Record>, Error>)
    decreases kids
  {
    if kids == [] then Success([])
    else
      var first :- Build(env, req, kids[0]);
      var rest :- Emitted(env, req, kids[1..]);
      Success(if first.Some? then [first.value] + rest else rest)
  }

  /** Some record in `rs` renders truthy (`True` or `'subitem'`). */
  predicate AnyActive(rs: seq<Record>) {
    exists i :: 0 <= i < |rs| && rs[i].active != No
  }

  /** The `active` a node ends up with: its own membership first, else
      `Subitem` when an emitted child is truthy. */
  function ActiveFrom(member: bool, emitted: seq<Record>): Active {
    if member then Yes else if AnyActive(emitted) then Subitem else No
  }

  /** The render stated without a loop. */
  function RenderSpec(env: Env, req: Request, node: Item): Result<Option<Record>, Error> {
    if Hidden(env, req, node) then Success(None)
    else
      match MakeUrl(env, req, node)
      case Failure(e) => Failure(e)
      case Success(url) =>
        match Emitted(env, req, node.items)
        case Failure(e) => Failure(e)
        case Success(es) => Success(Some(Record(node.title, url, es, ActiveFrom(IsActive(req, node.id), es), node.extras)))
  }

  /** `acc` after appending all of `es` at once, upgrading a falsy
      `active` when one of them is truthy. */
  function AppendAll(acc: Record, es: seq<Record>): Record {
    acc.(items := acc.items + es,
         active := if acc.active != No then acc.active else if AnyActive(es) then Subitem else No)
  }

  /** The children loop appends exactly the emitted records and upgrades
      `active` exactly when one of them is truthy. */
  lemma {:induction false} GatherIsEmitted(env: Env, req: Request, kids: seq<Item>, acc: Record)
    ensures Emitted(env, req, kids).Failure? ==>
              Gather(env, req, kids, acc) == Failure(Emitted(env, req, kids).error)
    ensures Emitted(env, req, kids).Success? ==>
              Gather(env, req, kids, acc) == Success(AppendAll(acc, Emitted(env, req, kids).value))
    decreases kids
  {
    if kids != [] {
      var rest := kids[1..];
      match Build(env, req, kids[0])
      case Failure(e) =>
      case Success(None) =>
        GatherIsEmitted(env, req, rest, acc);
      case Success(Some(item)) =>
        GatherIsEmitted(env, req, rest, Absorb(acc, item));
        if Emitted(env, req, rest).Success? {
          AbsorbThenAppend(acc, item, Emitted(env, req, rest).value);
        }
    } else {
      assert acc.items + [] == acc.items;
    }
  }

  lemma AbsorbThenAppend(acc: Record, item: Record, es: seq<Record>)
    ensures AppendAll(Absorb(acc, item), es) == AppendAll(acc, [item] + es)
  {
    assert acc.items + [item] + es == acc.items + ([item] + es);
    AnyActiveCons(item, es);
  }

  lemma AnyActiveCons(item: Record, es: seq<Record>)
    ensures AnyActive([item] + es) <==> item.active != No || AnyActive(es)
  {
    var all := [item] + es;
    assert all[0] == item;
    if AnyActive(es) {
      var i :| 0 <= i < |es| && es[i].active != No;
      assert all[i + 1] == es[i];
    }
    if AnyActive(all) && item.active == No {
      var i :| 0 <= i < |all| && all[i].active != No;
      assert i > 0 && es[i - 1] == all[i];
    }
  }

  /** The recursive render agrees with the loop-free reading. */
  lemma BuildMatchesSpec(env: Env, req: Request, node: Item)
    ensures Build(env, req, node) == RenderSpec(env, req, node)
  {
    if !Hidden(env, req, node) && MakeUrl(env, req, node).Success? {
      var url := MakeUrl(env, req, node).value;
      var start := Record(node.title, url, [], if IsActive(req, node.id) then Yes else No, node.extras);
      GatherIsEmitted(env, req, node.items, start);
    }
  }

  /** The rendered `items` are exactly the emitted children, and `active` is
      `True` iff the node is in the activation set, `'subitem'` iff it is not
      but an emitted child is truthy, and `False` otherwise. */
  lemma ActiveRule(env: Env, req: Request, node: Item, rec: Record)
    requires Build(env, req, node) == Success(Some(rec))
    ensures Emitted(env, req, node.items) == Success(rec.items)
    ensures rec.active == Yes <==> IsActive(req, node.id)
    ensures rec.active == Subitem <==> !IsActive(req, node.id) && AnyActive(rec.items)
    ensures rec.active == No <==> !IsActive(req, node.id) && !AnyActive(rec.items)
  {
    BuildMatchesSpec(env, req, node);
  }

  /** How many of the children pass their visibility check. */
  function VisibleCount(env: Env, req: Request, kids: seq<Item>): (n: nat)
    ensures n <= |kids|
  {
    if kids == [] then 0
    else (if Hidden(env, req, kids[0]) then 0 else 1) + VisibleCount(env, req, kids[1..])
  }

  /** Pruned children leave no trace: there is one emitted record per
      visible child, and each visible child's own record is among them. */
  lemma {:induction false} EmittedFacts(env: Env, req: Request, kids: seq<Item>)
    requires Emitted(env, req, kids).Success?
    ensures |Emitted(env, req, kids).value| == VisibleCount(env, req, kids)
    ensures forall i :: 0 <= i < |kids| ==> Build(env, req, kids[i]).Success?
    ensures forall i :: 0 <= i < |kids| && !Hidden(env, req, kids[i]) ==>
              Build(env, req, kids[i]).value.Some? &&
              Build(env, req, kids[i]).value.value in Emitted(env, req, kids).value
    ensures forall rec :: rec in Emitted(env, req, kids).value ==>
              exists i :: 0 <= i < |kids| && Build(env, req, kids[i]) == Success(Some(rec))
    decreases kids
  {
    if kids != [] {
      EmittedFacts(env, req, kids[1..]);
      forall i | 0 < i < |kids|
        ensures kids[i] == kids[1..][i - 1]
      {
      }
      var es := Emitted(env, req, kids).value;
      forall rec | rec in es
        ensures exists i :: 0 <= i < |kids| && Build(env, req, kids[i]) == Success(Some(rec))
      {
        if Build(env, req, kids[0]) != Success(Some(rec)) {
          assert rec in Emitted(env, req, kids[1..]).value;
          var j :| 0 <= j < |kids[1..]| && Build(env, req, kids[1..][j]) == Success(Some(rec));
          assert kids[j + 1] == kids[1..][j];
        }
      }
    }
  }

  /** No node of the subtree is in the activation set. */
  predicate Quiet(req: Request, node: Item)
    decreases node
  {
    !IsActive(req, node.id) && forall i :: 0 <= i < |node.items| ==> Quiet(req, node.items[i])
  }

  /** A subtree with no activated node renders `False`: activation never
      leaks to siblings or to unrelated branches. */
  lemma {:induction false} QuietRendersInactive(env: Env, req: Request, node: Item, rec: Record)
    requires Quiet(req, node)
    requires Build(env, req, node) == Success(Some(rec))
    ensures rec.active == No
    decreases node
  {
    ActiveRule(env, req, node, rec);
    EmittedFacts(env, req, node.items);
    forall i | 0 <= i < |rec.items|
      ensures rec.items[i].active == No
    {
      var k :| 0 <= k < |node.items| && Build(env, req, node.items[k]) == Success(Some(rec.items[i]));
      QuietRendersInactive(env, req, node.items[k], rec.items[i]);
    }
  }

  /* Activation along a path from the root. */

  /** `path` lists child positions, each in range, from `node` downwards. */
  predicate ValidPath(node: Item, path: seq<nat>)
    decreases |path|
  {
    path == [] || (path[0] < |node.items| && ValidPath(node.items[path[0]], path[1..]))
  }

  /** The nodes met walking `path` from `node`: `node` first, the target last. */
  function Along(node: Item, path: seq<nat>): (r: seq<Item>)
    requires ValidPath(node, path)
    decreases |path|
    ensures |r| == |path| + 1 && r[0] == node
  {
    if path == [] then [node] else [node] + Along(node.items[path[0]], path[1..])
  }

  /** The node renders, and renders truthy. */
  predicate Lit(env: Env, req: Request, node: Item) {
    var b := Build(env, req, node);
    b.Success? && b.value.Some? && b.value.value.active != No
  }

  /** An activated node whose every ancestor is visible renders `True`, and
      every node on the way down to it renders truthy. */
  lemma {:induction false} ActivePath(env: Env, req: Request, root: Item, path: seq<nat>)
    requires ValidPath(root, path)
    requires forall k :: 0 <= k <= |path| ==> !Hidden(env, req, Along(root, path)[k])
    requires IsActive(req, Along(root, path)[|path|].id)
    requires Build(env, req, root).Success?
    ensures forall k :: 0 <= k <= |path| ==> Lit(env, req, Along(root, path)[k])
    ensures var b := Build(env, req, Along(root, path)[|path|]);
              b.Success? && b.value.Some? && b.value.value.active == Yes
    decreases |path|
  {
    var nodes := Along(root, path);
    assert nodes[0] == root;
    if path != [] {
      var child := root.items[path[0]];
      var rest := path[1..];
      var sub := Along(child, rest);
      assert nodes == [root] + sub;
      assert forall k :: 0 <= k <= |rest| ==> sub[k] == nodes[k + 1];
      BuildMatchesSpec(env, req, root);
      var rec := Build(env, req, root).value.value;
      ActiveRule(env, req, root, rec);
      EmittedFacts(env, req, root.items);
      assert Build(env, req, child).Success?;
      ActivePath(env, req, child, rest);
      var crec := Build(env, req, child).value.value;
      assert crec in rec.items;
      assert AnyActive(rec.items);
      assert Lit(env, req, root);
      forall k | 0 <= k <= |path|
        ensures Lit(env, req, nodes[k])
      {
        if k > 0 {
          assert nodes[k] == sub[k - 1];
        }
      }
    }
  }
}

=== FILE: wrappers.dfy ===
/** Failure-compatible wrappers: `Option` for Python's `None`-or-value and
    `Result` for a computation that may raise. Both work with `:-`. */
module Wrappers {

  datatype Option<+T> = None | Some(value: T)

  datatype Result<+R, +E> = Success(value: R) | Failure(error: E) {

    predicate IsFailure() {
      Failure?
    }

    function PropagateFailure<U>(): Result<U, E>
      requires Failure?
    {
      Failure(error)
    }

    function Extract(): R
      requires Success?
    {
      value
    }
  }
}
